=== FILE: README.md ===
# Tablet CRUD service: the decision layer, in Dafny

The service keeps one resource, the Tablet (name, generic name, price,
description), in a relational database reached through Prisma, and exposes it
over HTTP, in two deployments: an Express server and Vercel serverless
functions. There are also diagnostics endpoints. The only logic in it is the
layer that turns a request and the database's answer into an HTTP status and
body. This project models that layer as pure functions and proves what each
branch promises.

The database is never simulated as part of the handlers. Every handler takes
the database's answers as input. A `Backend.Prisma` value holds those answers:
a `DbResult` (`Ok(value)` or `Err(DbError(code, message))`) for each call the
handler may make. Each handler returns a `Step`: the response plus the ordered
log of client calls it made. So "no database access" means the log is empty,
and "disconnects before responding" means the log ends with `Disconnect`
(`Backend.Released`). An absent JavaScript string property is written `""`,
which is falsy exactly like `undefined`. A request body field is a
`Records.Field` (`Absent`, `Null` or `Given(v)`), so the source's truthiness
and `== null` tests can be written out.

Modules, following the source files:

- `Strings`: `startsWith`, `endsWith` and `includes`.
- `Records`, `Backend`, `Http`: the entity, the client's answers and call log,
  and response bodies.
- `TabletHandlers`: the five operations of `integrations/api/tablets.ts`.
- `ErrorTaxonomy`: an independent table from (operation, error class) to
  status. Lemmas prove that every handler's catch block agrees with it.
- `CollectionRouter`: the serverless collection function `api/tablets/index.ts`.
- `Server`: `server.ts`. It covers the CORS origin rule, route matching and
  pass-through, the inline health route and the frontend fallback.
- `Migration`: `api/migrate.ts`.
- `Diagnostics`: `api/health.ts` and `api/test-db.ts`.
- `MemoryDb`: a reference in-memory database for running the handlers end to
  end. It answers P2025 for a missing row on update or delete and P2021 for a
  missing table. `undefined` in update data leaves a column unchanged, and the
  list query sorts by creation time, newest first (`MemoryDb.SortNewestFirst`).
  Rows created at the same instant keep their storage order, so the ordering
  lemmas require strictly increasing creation times. The scenario lemmas cover
  create then get, delete twice, partial update, newest-first listing,
  self-healing list and repeated migration. Because the table the code itself
  creates has no uniqueness constraint on the name, it enforces only the
  primary key.

Behaviours of the code that are easy to miss:

- An update with an empty id answers 400, not 404. 404 comes only from the
  database's P2025.
- An update does not set a price that is merely present. The code tests the
  price for truthiness, so a price of 0 is sent as `undefined` and the stored
  price stays (`MemoryDb.ZeroPriceUpdateKeepsPrice`). Create uses `== null`,
  so it accepts 0.
- A table created by the code's own `CREATE TABLE` has no uniqueness
  constraint on the name, so "duplicate" means only that the database
  reported P2002.
- The collection function advertises only `GET,POST,OPTIONS` in
  `Access-Control-Allow-Methods`, and only `GET, POST` in `Allow`.
- The other four Tablet operations (get, create, update, delete) do not report
  a missing table with a migration hint. They answer the generic 500 with the
  database's message.
- The list operation checks the message for "does not exist" before it checks
  the codes P2002, P2003 and P2005. So such a coded error still makes it create
  the table (`ErrorTaxonomy.ListMessageOverridesCode`).

## Model

| member | source | states |
|---|---|---|
| Strings.Includes | integrations/api/tablets.ts:28 | `includes` is true exactly when the substring occurs at some index. |
| TabletHandlers.ListErrorResponse | integrations/api/tablets.ts:22-56 | The list's catch answers 200 with an empty list exactly when the error is not P1001, looks like a missing table, and creating the table succeeds. Otherwise it answers 500. P1001 gets the connection message, whatever the message says. A failed self-heal advises migrations. P2002, P2003 and P2005 give 'Database Error' with 'Unique constraint failed.', 'Foreign key constraint failed.' and 'Value violates field constraint.' respectively. Any other error gives 'Internal Server Error' with its message or 'Unknown error occurred'. |
| TabletHandlers.GetTablets | integrations/api/tablets.ts:10-57 | The call log is the connectivity probe, then the query exactly when the probe succeeded, then the table creation exactly when the failure takes the missing-table branch; the handler never disconnects itself. With both successful, the answer is 200 with the database's rows unchanged. The table is created exactly when the failure takes the missing-table branch. The status is always 200 or 500. |
| TabletHandlers.GetTabletById | integrations/api/tablets.ts:60-79 | An empty id gives 400 with no database call. Otherwise there is exactly one lookup: a found row gives 200 `{tablet}`, none gives 404, and an error gives 500 with its message or the default. |
| TabletHandlers.CreateData | integrations/api/tablets.ts:84-96 | The row sent carries the given name, generic name and price. The description is '' exactly when the given one is falsy. |
| TabletHandlers.CreateTablet | integrations/api/tablets.ts:82-107 | There is no database call exactly when `name` or `genericName` is falsy or `price` is null/undefined, and that case answers 400 'Missing required fields'. Otherwise 201 `{tablet}` on success, 400 'Duplicate Entry' exactly for P2002, else 500. |
| TabletHandlers.PatchOf | integrations/api/tablets.ts:116-125 | Update data passes name, generic name and description through as given. A price is sent exactly when it is truthy, so absent, null and 0 are all sent as undefined. |
| TabletHandlers.UpdateTablet | integrations/api/tablets.ts:110-138 | An empty id gives 400 with no call. Otherwise there is one update with `PatchOf` data: 200 `{tablet}` on success, 404 'Tablet not found' exactly for P2025, 400 'Duplicate Entry' with its details exactly for P2002, and any other error gives 500 'Internal Server Error' with its message or the default. |
| TabletHandlers.DeleteTablet | integrations/api/tablets.ts:141-156 | The status is 400 'Invalid tablet ID' exactly for an empty id, which makes no call. Otherwise there is one delete: 204 with `{}` on success, 404 exactly for P2025, and any other error gives 500 'Internal Server Error' with its message or the default. |
| TabletHandlers.ZeroPriceCreateVersusUpdate | integrations/api/tablets.ts:84-125 | A price of 0 is sent by create but dropped by update. |
| ErrorTaxonomy.ListFollowsTaxonomy | integrations/api/tablets.ts:26-55 | A failing list's status is the table's entry for the error's class, whenever the message does not contradict the code. |
| ErrorTaxonomy.ListMessageOverridesCode | integrations/api/tablets.ts:26-53 | A P2002, P2003, P2005 or P2025 error that mentions "does not exist" still makes the list create the table and answer 200, though the table says 500. |
| ErrorTaxonomy.GetFollowsTaxonomy | integrations/api/tablets.ts:75-78 | Every lookup error answers the table's status for get, which is 500 in every class. |
| ErrorTaxonomy.CreateFollowsTaxonomy | integrations/api/tablets.ts:100-106 | Every create error answers the table's status: 400 for a uniqueness violation, else 500. |
| ErrorTaxonomy.UpdateFollowsTaxonomy | integrations/api/tablets.ts:129-137 | Every update error answers the table's status: 404 for not found, 400 for uniqueness, else 500. |
| ErrorTaxonomy.DeleteFollowsTaxonomy | integrations/api/tablets.ts:149-155 | Every delete error answers the table's status: 404 for not found, else 500. |
| CollectionRouter.Handle | api/tablets/index.ts:12-50 | The three CORS headers come first on every response. OPTIONS, and only OPTIONS, answers 200 with no body, calls nothing and does not disconnect. Every other method ends by disconnecting. GET and POST forward the list and create handlers' status and body unchanged. The status is 405 exactly for other methods, and the `Allow: GET, POST` header appears exactly then; a 405 has disconnected exactly once. A failing disconnect gives 500 'Internal Server Error' with its message; the log is then the dispatched handler's calls (none for other methods) followed by two disconnects. |
| CollectionRouter.HandleStatuses | api/tablets/index.ts:19-49 | The function answers only 200, 201, 400, 405 or 500, and a GET only 200 or 500. |
| Server.CorsOrigin | server.ts:14-34 | A request without an origin is allowed. An origin is allowed exactly when it is in the allow-list (the fixed entries plus FRONTEND_URL or '') or ends with '.vercel.app' or '.railway.app'. Otherwise it is rejected with 'Not allowed by CORS'. |
| Server.UnsetFrontendUrlAdmitsNothingMore | server.ts:16-29 | With FRONTEND_URL unset, the '' entry admits nothing beyond the fixed list and the suffix rules. |
| Server.FrontendUrlAdmitted | server.ts:26-29 | A configured FRONTEND_URL is always admitted. |
| Server.DeploymentOriginAdmittedBySuffix | server.ts:24-29 | The deployment's real origin does not match its slash-terminated list entry. It is admitted by the `.vercel.app` rule. |
| Server.ItemId | server.ts:47-48 | A matched `/api/tablets/:id` path is exactly the item prefix followed by a non-empty id with no '/'. |
| Server.ItemPathRoundTrip | server.ts:47-66 | Matching the path built from such an id gives back that id. |
| Server.Resolve | server.ts:42-104 | HEAD matches the routes registered with `app.get`, as GET does. The catch-all is reached exactly by a GET or HEAD that matches none of the earlier GET routes, so every GET or HEAD is routed. POST matches only the collection path, PUT and DELETE exactly the item paths. A GET or HEAD of the collection path reaches the list, of an item path the lookup, of `/api/health` the health route, and every item route carries the id matched from the path. Methods other than GET, HEAD, POST, PUT and DELETE match no route. |
| Server.ApiHealth | server.ts:71-80 | The Express health route answers 200 'OK' exactly when `SELECT 1` succeeds. Otherwise it answers 500 'ERROR' carrying the error's message. |
| Server.Fallback | server.ts:104-122 | A path starting with '/api/' gets 404 `{error:'Not found'}` whatever the dist state. Otherwise: no dist gives 503 'Frontend not built', and a dist without index.html gives 503 'Frontend index missing'. The index file is served exactly when both exist. |
| Server.App | server.ts:13-122 | A CORS rejection happens exactly when the origin rule rejects, before any route. An allowed OPTIONS is answered by the CORS layer. |
| Server.UnmatchedRequestsFallThrough | server.ts:42-104 | An allowed request other than OPTIONS or HEAD that no route matches (PATCH on an item path, PUT on the collection) is left unanswered by the application. |
| Server.HeadMirrorsGet | server.ts:42-122 | An allowed HEAD gets the status the same GET would get, with the body dropped. |
| Server.HealthAndFallbackRoutes | server.ts:71-122 | An allowed GET of `/api/health` is answered by the health route. An allowed GET of any path that no Tablet route or the health route claims is answered by the catch-all. |
| Server.PageRequestsServeTheFrontend | server.ts:104-122 | An allowed GET outside '/api/' serves the index file of the active dist exactly when the dist and its index.html exist. Otherwise it answers 503. |
| Server.HealthRoutesAgree | server.ts:71-80 | With the database configured and the count succeeding, the Express health route and `api/health.ts` answer the same status for the same probe. |
| Server.TabletRoutesPassThrough | server.ts:42-68 | The five Tablet routes answer with the handler's status and body unchanged, and the id comes from the path. |
| Server.ApiPathsNeverServeTheFrontend | server.ts:104-107 | An allowed GET under '/api/' is always answered with JSON, never with the frontend page. |
| Migration.AuthorizedIffExactBearer | api/migrate.ts:16-20 | The header passes exactly when it equals "Bearer " followed by the secret. |
| Migration.Migrate | api/migrate.ts:5-63 | An unset secret gives 500 with no database access, whatever the header. The status is 401 exactly for a configured secret and a missing or unequal header. The database is touched exactly when authorized, and the log is then the table probe, the table creation exactly when the probe reports a missing table, and one disconnect. A successful probe gives 200 'already up to date' and creates nothing. The table is created exactly when the probe fails with P2021 or "does not exist", and success then gives 200 'migration completed'. Any other probe error, or a failed create, gives 500 'Migration failed' with that error's message or the default. |
| Diagnostics.Health | api/health.ts:4-48 | An unset DATABASE_URL gives 500 `{status:'error'}` with no call. On success the answer is 200 `{status:'ok'}` with the backend's count. A failure gives 500 with the P1001 message, the P2021 message, or the error's message (defaulting to 'Database connection failed'), and `code` is the error's code or 'UNKNOWN_ERROR'. With DATABASE_URL set the log is `SELECT 1`, the count exactly when `SELECT 1` succeeded, and one disconnect. |
| Diagnostics.TestDb | api/test-db.ts:4-55 | An unset DATABASE_URL gives 500 with no call. A successful connection query always gives 200, with the sampled rows, or `{error: message}` when the Tablet query fails. A failing connection query gives 500 with the shared classification. With DATABASE_URL set the log is the connection query, the sample query exactly when the connection query succeeded, and one disconnect. |
| Diagnostics.SameClassification | api/health.ts:33-46 | For the same failure, health and test-db report the same message and code. |
| MemoryDb.CreateThenGet | integrations/api/tablets.ts:60-107 | Against the reference database, a create answers 201 and a get by the new id returns the same record carrying the submitted fields, with the defaulted description. |
| MemoryDb.MissingFieldsCreateNothing | integrations/api/tablets.ts:86-88 | A create missing a required field answers 400 and leaves the database unchanged. |
| MemoryDb.DeleteTwice | integrations/api/tablets.ts:141-156 | Deleting an existing Tablet answers 204. Deleting it again, or getting it, answers 404. |
| MemoryDb.PriceOnlyUpdate | integrations/api/tablets.ts:116-128 | An update giving only a non-zero price changes just the price and the update time. The stored row is the returned one. |
| MemoryDb.ZeroPriceUpdateKeepsPrice | integrations/api/tablets.ts:123 | An update with price 0 answers 200 and keeps the stored price. |
| MemoryDb.UpdateOfMissingId | integrations/api/tablets.ts:129-132 | Updating an id that does not exist answers 404 and changes nothing. |
| MemoryDb.SortNewestFirst | integrations/api/tablets.ts:15-17 | The list query's result is ordered by `createdAt`, newest first, and holds exactly the stored rows. |
| MemoryDb.SortKeepsSortedRows | integrations/api/tablets.ts:15-17 | Rows already ordered newest first come back unchanged. |
| MemoryDb.SortPutsNewestInFront | integrations/api/tablets.ts:15-17 | A row created after every other row is listed first, ahead of the others in their sorted order. |
| MemoryDb.Replace | integrations/api/tablets.ts:126-128 | An update writes over only the row with its id. Every other row is unchanged, a lookup of the id finds the new row exactly when the id existed, and an absent id leaves the rows as they were. |
| MemoryDb.CreateStores | integrations/api/tablets.ts:89-99 | A complete create with a fresh id answers 201 with the row it stored, and the table afterwards is the old table plus that row. |
| MemoryDb.CreateListedFirst | integrations/api/tablets.ts:15-21 | A successful create later than every stored row puts the new Tablet at the head of the next list, followed by the previous list unchanged. |
| MemoryDb.TwoCreatesListedNewestFirst | integrations/api/tablets.ts:15-21 | Two creates at increasing times, both later than every stored row, are listed in reverse creation order ahead of the older rows. |
| MemoryDb.ReadsChangeNothing | integrations/api/tablets.ts:13-17 | Replaying a log that holds no create, update, delete or table creation leaves the database as it was. |
| MemoryDb.ListChangesNothing | integrations/api/tablets.ts:10-21 | Listing a database that has the table changes nothing. |
| MemoryDb.HealthChangesNothing | api/health.ts:15-31 | The health check changes nothing. |
| MemoryDb.TestDbChangesNothing | api/test-db.ts:16-38 | The database test changes nothing. |
| MemoryDb.UpToDateMigrationChangesNothing | api/migrate.ts:25-31 | A migration that finds the table changes nothing. |
| MemoryDb.ListHealsMissingTable | integrations/api/tablets.ts:28-42 | Listing without the table creates it and answers 200 with an empty list, and the next list finds the empty table. |
| MemoryDb.MigrationIsIdempotent | api/migrate.ts:25-50 | A first migration creates the table. A second one reports 'already up to date' and changes nothing. |

## Left out

- Prisma, the SQL text and real query semantics are left out: constraint enforcement, and id and timestamp generation. They are the database's behaviour, not this code's, so they are inputs. `MemoryDb` is one reference instance, not a claim about Postgres; in particular the order of rows with equal `createdAt` is storage order there and unspecified in a real database.
- `parseFloat` and the floating-point price are not modelled. Prices are integers, and a price given as a string is not modelled.
- Non-string values in `name`, `genericName` or `description` (a number, say) are not modelled. Prisma would reject them.
- A request body that is not an object is left out. Destructuring `undefined` throws inside the handler's `try` and answers 500 with the runtime's message.
- Error messages that are not strings are left out: the `typeof` guard in the list handler and `message?.includes` in the migration. A message is always a string here, with "" for an absent one.
- Express routing details are left out. These are case-insensitive matching, an optional trailing slash, percent-decoding of `:id`, `express.static`, JSON body parse errors, the status the `cors` package uses for preflight, and what Express's error handler writes for a CORS rejection. The model names these outcomes (`Preflight`, `CorsFailure`, `Unrouted`) without their bytes.
- Resolving the dist directory (server.ts:84-101), `path.join` normalisation and `sendFile` are left out. The active dist path and whether its index.html exists are inputs, and the index path is the dist path followed by "/index.html".
- A failing `$disconnect()` is modelled only in the collection function. In the migration, health and test-db endpoints, and for the second disconnect in the collection function's catch, it is assumed to succeed.
- Logging is left out, including the start-up DATABASE_URL message in `api/tablets/index.ts`.
- The `connectionTest` rows of test-db are carried as opaque integers. A Tablet query error without a message is shown as `{error: ""}`, where JSON would drop the key.
- Timestamps are abstract integers, not ISO-8601 strings.
- The Prisma client singleton (`prismaClient.ts`), process bootstrap (`index.ts`, `integrations/client.ts`, `app.listen`), `api/test.ts`, `api/test-env.ts` and the console scripts `test-db-connection.ts` and `test-database.ts` are not part of this model. They hold no decisions.
- `api/tablets/[id].ts`, the item function of the serverless deployment, is not part of this model.
- Asynchrony and concurrency are left out. Each handler is a single sequential step.
- Server.App: its own contract states only the CORS and preflight behaviour. The routes are stated by `Server.TabletRoutesPassThrough`, `Server.UnmatchedRequestsFallThrough`, `Server.HeadMirrorsGet`, `Server.HealthAndFallbackRoutes`, `Server.PageRequestsServeTheFrontend` and `Server.ApiPathsNeverServeTheFrontend`.
- A HEAD answered by `sendFile` is shown as the `SendFile` outcome; the headers-only transfer is Node's.

=== FILE: backend.dfy ===
/** The database client as the handlers see it: a closed set of outcomes per
    call, the error shape Prisma throws, and a log of the calls made. */
module Backend {
  import opened Records
  import Strings

  const P1001 := "P1001"  // cannot reach the database server
  const P2002 := "P2002"  // unique constraint failed
  const P2003 := "P2003"  // foreign key constraint failed
  const P2005 := "P2005"  // value invalid for the field's type
  const P2021 := "P2021"  // table does not exist
  const P2025 := "P2025"  // record required by the operation not found

  /** A thrown error's `code` and `message`; "" stands for an absent property. */
  datatype DbError = DbError(code: string, message: string)

  datatype DbResult<+T> = Ok(value: T) | Err(error: DbError)

  /** The answers the database gives to each call a Tablet handler can make.
      Calls that take an argument are answered by a function of that argument. */
  datatype Prisma = Prisma(
    selectOne: DbResult<()>,                              // $queryRaw SELECT 1
    findMany: DbResult<seq<Tablet>>,                      // findMany ordered by createdAt desc
    createTable: DbResult<()>,                            // CREATE TABLE IF NOT EXISTS "Tablet"
    findUnique: string -> DbResult<Option<Tablet>>,       // findUnique by id
    create: NewTablet -> DbResult<Tablet>,                // create
    update: (string, TabletPatch) -> DbResult<Tablet>,    // update by id
    delete: string -> DbResult<()>)                       // delete by id

  /** One call made on the client, in the order it was made. */
  datatype DbCall =
    | SelectOne
    | FindManyNewestFirst
    | CreateTable
    | FindUnique(id: string)
    | CreateRow(data: NewTablet)
    | UpdateRow(id: string, patch: TabletPatch)
    | DeleteRow(id: string)
    | ProbeTable          // SELECT 1 FROM "Tablet" LIMIT 1
    | SelectConnected     // SELECT 1 as connected
    | CountRows
    | SampleRows          // findMany({ take: 1 })
    | Disconnect

  /** The client was released as the last thing done before responding. */
  predicate Released(calls: seq<DbCall>)
  {
    |calls| > 0 && calls[|calls| - 1] == Disconnect
  }

  /** The test both the list handler and the migration endpoint use to decide
      that the Tablet table is missing: code P2021, or a message saying so. */
  predicate MissingTable(e: DbError)
  {
    e.code == P2021 || Strings.Includes(e.message, "does not exist")
  }

  const UNKNOWN_ERROR := "Unknown error occurred"

  /** `error.message || 'Unknown error occurred'` */
  function Details(e: DbError): string
  {
    if e.message != "" then e.message else UNKNOWN_ERROR
  }
}

=== FILE: diagnostics.dfy ===
/** The two diagnostics endpoints: the health check, which counts Tablets,
    and the database test, which tolerates a failing Tablet query. Both
    classify a failure the same way. */
module Diagnostics {
  import opened Records
  import opened Backend
  import opened Http

  const URL_NOT_SET := "DATABASE_URL environment variable is not set"
  const CONNECTED := "Database connection successful"
  const CANNOT_CONNECT := "Cannot connect to database. Check your DATABASE_URL environment variable."
  const TABLE_MISSING := "Table does not exist. Run database migrations."
  const FALLBACK_MESSAGE := "Database connection failed"
  const UNKNOWN_CODE := "UNKNOWN_ERROR"
  const TEST_FAILED := "Database test failed"

  /** The message both endpoints put in an error response. */
  function ErrorMessage(e: DbError): string
  {
    if e.code == P1001 then CANNOT_CONNECT
    else if e.code == P2021 then TABLE_MISSING
    else if e.message != "" then e.message
    else FALLBACK_MESSAGE
  }

  /** `error.code || 'UNKNOWN_ERROR'` */
  function ErrorCodeOf(e: DbError): string
  {
    if e.code != "" then e.code else UNKNOWN_CODE
  }

  /** The error reaching the health check's catch block, if any. */
  function HealthFailure(probe: DbResult<()>, count: DbResult<nat>): Option<DbError>
  {
    if probe.Err? then Some(probe.error)
    else if count.Err? then Some(count.error)
    else None
  }

  /** GET /api/health (serverless). `databaseUrl` is DATABASE_URL, "" when unset. */
  function Health(databaseUrl: string, probe: DbResult<()>, count: DbResult<nat>): (r: Step)
    ensures databaseUrl == "" <==> r.calls == []
    ensures databaseUrl == "" ==> r.response == Response(500, Status("error", URL_NOT_SET))
    ensures databaseUrl != "" ==> r.calls[0] == SelectOne && Released(r.calls)
    ensures databaseUrl != "" && probe.Err? ==> r.calls == [SelectOne, Disconnect]
    ensures databaseUrl != "" && probe.Ok? ==> r.calls == [SelectOne, CountRows, Disconnect]
    ensures r.response.status in {200, 500}
    ensures r.response.status == 200 <==> databaseUrl != "" && probe.Ok? && count.Ok?
    ensures r.response.status == 200 ==> r.response.body == StatusCount("ok", CONNECTED, count.value)
    ensures databaseUrl != "" && HealthFailure(probe, count).Some? ==>
      var e := HealthFailure(probe, count).value;
      && r.response.body.StatusCode?
      && r.response.body.status == "error"
      && (e.code == P1001 ==> r.response.body.message == CANNOT_CONNECT)
      && (e.code == P2021 ==> r.response.body.message == TABLE_MISSING)
      && (e.code !in {P1001, P2021} ==>
            r.response.body.message == (if e.message != "" then e.message else FALLBACK_MESSAGE))
      && r.response.body.code == (if e.code != "" then e.code else UNKNOWN_CODE)
  {
    if databaseUrl == "" then
      Step(Response(500, Status("error", URL_NOT_SET)), [])
    else
      var queried := if probe.Ok? then [SelectOne, CountRows] else [SelectOne];
      match HealthFailure(probe, count)
      case None => Step(Response(200, StatusCount("ok", CONNECTED, count.value)), queried + [Disconnect])
      case Some(e) => Step(Response(500, StatusCode("error", ErrorMessage(e), ErrorCodeOf(e))), queried + [Disconnect])
  }

  /** GET /api/test-db. `connect` answers `SELECT 1 as connected`, `sample`
      answers `findMany({ take: 1 })`. */
  function TestDb(databaseUrl: string, connect: DbResult<seq<int>>, sample: DbResult<seq<Tablet>>): (r: Step)
    ensures databaseUrl == "" <==> r.calls == []
    ensures databaseUrl == "" ==> r.response == Response(500, Error(URL_NOT_SET))
    ensures databaseUrl != "" ==> r.calls[0] == SelectConnected && Released(r.calls)
    ensures databaseUrl != "" && connect.Err? ==> r.calls == [SelectConnected, Disconnect]
    ensures databaseUrl != "" && connect.Ok? ==> r.calls == [SelectConnected, SampleRows, Disconnect]
    ensures r.response.status in {200, 500}
    ensures r.response.status == 200 <==> databaseUrl != "" && connect.Ok?
    ensures r.response.status == 200 ==>
      && r.response.body.Connected?
      && r.response.body.message == CONNECTED
      && r.response.body.connectionTest == connect.value
      && r.response.body.tabletTest ==
           (if sample.Ok? then SampleOk(sample.value) else SampleFailed(sample.error.message))
    ensures databaseUrl != "" && connect.Err? ==>
      r.response.body == ErrorCode(TEST_FAILED, ErrorMessage(connect.error), ErrorCodeOf(connect.error))
  {
    if databaseUrl == "" then
      Step(Response(500, Error(URL_NOT_SET)), [])
    else
      match connect
      case Ok(rows) =>
        var tabletTest := match sample
          case Ok(ts) => SampleOk(ts)
          case Err(e) => SampleFailed(e.message);
        Step(Response(200, Connected(CONNECTED, rows, tabletTest)), [SelectConnected, SampleRows, Disconnect])
      case Err(e) =>
        Step(Response(500, ErrorCode(TEST_FAILED, ErrorMessage(e), ErrorCodeOf(e))), [SelectConnected, Disconnect])
  }

  /** For the same connection failure both endpoints report the same message
      and the same code. */
  lemma SameClassification(databaseUrl: string, e: DbError, count: DbResult<nat>, sample: DbResult<seq<Tablet>>)
    requires databaseUrl != ""
    ensures Health(databaseUrl, Err(e), count).response.body.message
         == TestDb(databaseUrl, Err(e), sample).response.body.message
    ensures Health(databaseUrl, Err(e), count).response.body.code
         == TestDb(databaseUrl, Err(e), sample).response.body.code
  {
  }
}

=== FILE: http.dfy ===
/** Responses: a status code with a JSON body (or a bare `end()`). */
module Http {
  import opened Records
  import opened Backend

  /** What `res.json(...)` or `res.end(...)` sends; one constructor per body shape
      the handlers produce. */
  datatype Body =
    | NoBody                                                  // res.end()
    | Text(text: string)                                      // res.end(text)
    | EmptyObject                                             // {}
    | TabletList(tablets: seq<Tablet>)                        // { tablets }
    | OneTablet(tablet: Tablet)                               // { tablet }
    | Error(error: string)                                    // { error }
    | ErrorDetails(error: string, details: string)            // { error, details }
    | Message(message: string)                                // { message }
    | Status(status: string, message: string)                 // { status, message }
    | StatusCount(status: string, message: string, tabletCount: nat)
    | StatusCode(status: string, message: string, code: string)
    | StatusError(status: string, message: string, error: string)
    | Connected(message: string, connectionTest: seq<int>, tabletTest: TabletSample)
    | ErrorCode(error: string, message: string, code: string)

  /** The `tabletTest` part of the database test: the sampled rows, or `{ error: message }`. */
  datatype TabletSample = SampleOk(rows: seq<Tablet>) | SampleFailed(error: string)

  datatype Response = Response(status: int, body: Body)

  /** A handler's response together with the calls it made on the client. */
  datatype Step = Step(response: Response, calls: seq<DbCall>)
}

=== FILE: memorydb.dfy ===
/** A reference in-memory database used to check the handlers end to end:
    absent rows give P2025 on update and delete, a missing table gives P2021,
    and the list query sorts by creation time, newest first. Rows created at
    the same instant keep their storage order, where a real database leaves
    their order open. It enforces only the primary key: the table the
    handlers create has no uniqueness constraint on the name. */
module MemoryDb {
  import opened Records
  import opened Backend
  import opened Http
  import opened TabletHandlers
  import opened Migration
  import Diagnostics

  /** The Tablet table, rows in storage order (each insert goes in front). */
  datatype Db = Db(tableExists: bool, rows: seq<Tablet>)

  // The handlers branch only on the codes of these errors, so their messages are
  // left empty; a 500 built from NULL_IN_REQUIRED therefore shows the default
  // 'Unknown error occurred' where Prisma would give its validation message.
  const TABLE_MISSING := DbError(P2021, "")
  const RECORD_MISSING := DbError(P2025, "")
  const ID_TAKEN := DbError(P2002, "")
  const NULL_IN_REQUIRED := DbError("", "")

  /** The first row with this id. */
  function Find(rows: seq<Tablet>, id: string): (r: Option<Tablet>)
    ensures r.Some? ==> r.value in rows && r.value.id == id
    ensures r.None? <==> forall t :: t in rows ==> t.id != id
  {
    if rows == [] then None
    else if rows[0].id == id then Some(rows[0])
    else
      var r := Find(rows[1..], id);
      assert forall t :: t in rows ==> t == rows[0] || t in rows[1..];
      r
  }

  /** The rows without those carrying this id. */
  function Without(rows: seq<Tablet>, id: string): (r: seq<Tablet>)
    ensures forall t :: t in r <==> t in rows && t.id != id
  {
    if rows == [] then []
    else
      var rest := Without(rows[1..], id);
      assert forall t :: t in rows ==> t == rows[0] || t in rows[1..];
      if rows[0].id == id then rest else [rows[0]] + rest
  }

  /** The rows with `t` written over the row that carries its id. */
  function Replace(rows: seq<Tablet>, t: Tablet): (r: seq<Tablet>)
    ensures |r| == |rows|
    ensures forall i :: 0 <= i < |rows| && rows[i].id != t.id ==> r[i] == rows[i]
    ensures forall u :: u in r && u.id == t.id ==> u == t
    ensures Find(rows, t.id).Some? <==> Find(r, t.id) == Some(t)
    ensures Find(rows, t.id).None? ==> r == rows
  {
    if rows == [] then []
    else
      var rest := Replace(rows[1..], t);
      [if rows[0].id == t.id then t else rows[0]] + rest
  }

  /** Rows are ordered by creation time, newest first. */
  predicate NewestFirst(rows: seq<Tablet>)
  {
    forall i, j :: 0 <= i < j < |rows| ==> rows[i].createdAt >= rows[j].createdAt
  }

  /** A row no older than the head of a sorted list can go in front of it. */
  lemma ConsNewestFirst(head: Tablet, rows: seq<Tablet>)
    requires NewestFirst(rows)
    requires rows == [] || rows[0].createdAt <= head.createdAt
    ensures NewestFirst([head] + rows)
  {
  }

  /** The first row of a sorted list is the newest. */
  lemma HeadIsNewest(rows: seq<Tablet>)
    requires NewestFirst(rows) && rows != []
    ensures forall u :: u in rows ==> u.createdAt <= rows[0].createdAt
  {
  }

  /** `t` placed in front of the first row that is not newer than it. */
  function Insert(t: Tablet, rows: seq<Tablet>): (r: seq<Tablet>)
    requires NewestFirst(rows)
    ensures NewestFirst(r)
    ensures multiset(r) == multiset(rows) + multiset{t}
  {
    if rows == [] || t.createdAt >= rows[0].createdAt then
      ConsNewestFirst(t, rows);
      [t] + rows
    else
      var head := rows[0];
      assert rows == [head] + rows[1..];
      var rest := Insert(t, rows[1..]);
      assert rest[0] in multiset(rows[1..]) + multiset{t};
      HeadIsNewest(rows);
      ConsNewestFirst(head, rest);
      [head] + rest
  }

  /** `orderBy: { createdAt: 'desc' }`: the rows sorted newest first, rows of
      equal creation time in storage order. */
  function SortNewestFirst(rows: seq<Tablet>): (r: seq<Tablet>)
    ensures NewestFirst(r)
    ensures multiset(r) == multiset(rows)
  {
    if rows == [] then []
    else
      assert rows == [rows[0]] + rows[1..];
      Insert(rows[0], SortNewestFirst(rows[1..]))
  }

  /** Rows that are already newest first come back unchanged. */
  lemma {:induction false} SortKeepsSortedRows(rows: seq<Tablet>)
    requires NewestFirst(rows)
    ensures SortNewestFirst(rows) == rows
  {
    if rows != [] {
      SortKeepsSortedRows(rows[1..]);
    }
  }

  /** A row newer than every other row sorts to the front. */
  lemma SortPutsNewestInFront(t: Tablet, rows: seq<Tablet>)
    requires forall u :: u in rows ==> u.createdAt < t.createdAt
    ensures SortNewestFirst([t] + rows) == [t] + SortNewestFirst(rows)
  {
    var sorted := SortNewestFirst(rows);
    assert ([t] + rows)[1..] == rows;
    if sorted != [] {
      assert sorted[0] in multiset(rows);
    }
  }

  /** The row `create` stores. */
  function Stored(d: NewTablet, id: string, now: int): Tablet
  {
    Tablet(id, d.name, d.genericName, d.price, Some(d.description), now, now)
  }

  /** Apply an update's data to a row: `undefined` keeps a column, `null`
      clears the nullable description and is refused for the required columns. */
  function Patched(t: Tablet, p: TabletPatch, now: int): (r: DbResult<Tablet>)
    ensures r.Ok? <==> !p.name.Null? && !p.genericName.Null?
    ensures r.Ok? ==> r.value.id == t.id && r.value.createdAt == t.createdAt && r.value.updatedAt == now
    ensures r.Ok? && p.name.Absent? ==> r.value.name == t.name
    ensures r.Ok? && p.genericName.Absent? ==> r.value.genericName == t.genericName
    ensures r.Ok? && p.price.None? ==> r.value.price == t.price
    ensures r.Ok? && p.description.Absent? ==> r.value.description == t.description
  {
    if p.name.Null? || p.genericName.Null? then Err(NULL_IN_REQUIRED)
    else
      Ok(Tablet(
        t.id,
        if p.name.Given? then p.name.value else t.name,
        if p.genericName.Given? then p.genericName.value else t.genericName,
        if p.price.Some? then p.price.value else t.price,
        match p.description
        case Absent => t.description
        case Null => None
        case Given(s) => Some(s),
        t.createdAt,
        now))
  }

  /** How the database answers each call in state `m`; `freshId` and `now` are
      the id and the time a create would assign. */
  function Answers(m: Db, freshId: string, now: int): Prisma
  {
    Prisma(
      Ok(()),
      if m.tableExists then Ok(SortNewestFirst(m.rows)) else Err(TABLE_MISSING),
      Ok(()),
      id => if !m.tableExists then Err(TABLE_MISSING) else Ok(Find(m.rows, id)),
      d => if !m.tableExists then Err(TABLE_MISSING)
           else if Find(m.rows, freshId).Some? then Err(ID_TAKEN)
           else Ok(Stored(d, freshId, now)),
      (id, p) => if !m.tableExists then Err(TABLE_MISSING)
                 else match Find(m.rows, id)
                   case None => Err(RECORD_MISSING)
                   case Some(t) => Patched(t, p, now),
      id => if !m.tableExists then Err(TABLE_MISSING)
            else if Find(m.rows, id).None? then Err(RECORD_MISSING)
            else Ok(()))
  }

  /** The state after the database executed `call`. */
  function Effect(m: Db, call: DbCall, freshId: string, now: int): Db
  {
    var db := Answers(m, freshId, now);
    match call
    case CreateTable => m.(tableExists := true)
    case CreateRow(d) => if db.create(d).Ok? then m.(rows := [db.create(d).value] + m.rows) else m
    case UpdateRow(id, p) => if db.update(id, p).Ok? then m.(rows := Replace(m.rows, db.update(id, p).value)) else m
    case DeleteRow(id) => if db.delete(id).Ok? then m.(rows := Without(m.rows, id)) else m
    case _ => m
  }

  /** The state after a handler's calls, in order. */
  function Replay(m: Db, calls: seq<DbCall>, freshId: string, now: int): Db
    decreases |calls|
  {
    if calls == [] then m else Replay(Effect(m, calls[0], freshId, now), calls[1..], freshId, now)
  }

  /** Replaying a single call is its effect. */
  lemma ReplayOne(m: Db, c: DbCall, freshId: string, now: int)
    ensures Replay(m, [c], freshId, now) == Effect(m, c, freshId, now)
  {
  }

  /** A call that writes nothing. */
  predicate ReadOnly(c: DbCall)
  {
    !c.CreateTable? && !c.CreateRow? && !c.UpdateRow? && !c.DeleteRow?
  }

  /** Replaying calls that write nothing leaves the database as it was. */
  lemma {:induction false} ReadsChangeNothing(m: Db, calls: seq<DbCall>, freshId: string, now: int)
    requires forall i :: 0 <= i < |calls| ==> ReadOnly(calls[i])
    ensures Replay(m, calls, freshId, now) == m
  {
    if calls != [] {
      ReadsChangeNothing(m, calls[1..], freshId, now);
    }
  }

  // ---------------------------------------------------------------- scenarios

  /** Creating a Tablet and then fetching it by the returned id gives back the
      same record, carrying the submitted fields. */
  lemma CreateThenGet(m: Db, input: TabletFields, freshId: string, now: int, later: int)
    requires m.tableExists && freshId != "" && Find(m.rows, freshId).None?
    requires !MissingRequired(input)
    ensures var created := CreateTablet(input, Answers(m, freshId, now));
      var m' := Replay(m, created.calls, freshId, now);
      var fetched := GetTabletById(freshId, Answers(m', freshId, later));
      && created.response.status == 201
      && fetched.response == Response(200, created.response.body)
      && var t := fetched.response.body.tablet;
      && t.id == freshId
      && t.name == input.name.value
      && t.genericName == input.genericName.value
      && t.price == input.price.value
      && t.description == Some(if TruthyText(input.description) then input.description.value else "")
  {
  }

  /** A create that is missing a required field leaves the table as it was. */
  lemma MissingFieldsCreateNothing(m: Db, input: TabletFields, freshId: string, now: int)
    requires MissingRequired(input)
    ensures var s := CreateTablet(input, Answers(m, freshId, now));
      s.response.status == 400 && Replay(m, s.calls, freshId, now) == m
  {
  }

  /** Deleting an existing Tablet answers 204; deleting it again answers 404. */
  lemma DeleteTwice(m: Db, id: string, freshId: string, now: int)
    requires m.tableExists && id != "" && Find(m.rows, id).Some?
    ensures var first := DeleteTablet(id, Answers(m, freshId, now));
      var m' := Replay(m, first.calls, freshId, now);
      var second := DeleteTablet(id, Answers(m', freshId, now));
      && first.response == Response(204, EmptyObject)
      && second.response == Response(404, Error(NOT_FOUND))
      && GetTabletById(id, Answers(m', freshId, now)).response == Response(404, Error(NOT_FOUND))
  {
  }

  /** An update that gives only a price changes the price and the update time
      and leaves every other column as it was; the stored row is the one returned. */
  lemma PriceOnlyUpdate(m: Db, id: string, price: int, freshId: string, now: int)
    requires m.tableExists && id != "" && Find(m.rows, id).Some? && price != 0
    ensures var before := Find(m.rows, id).value;
      var s := UpdateTablet(id, TabletFields(Absent, Absent, Given(price), Absent), Answers(m, freshId, now));
      && s.response.status == 200
      && var t := s.response.body.tablet;
      && t == before.(price := price, updatedAt := now)
      && Find(Replay(m, s.calls, freshId, now).rows, id) == Some(t)
  {
  }

  /** An update whose price is 0 answers 200 but keeps the stored price. */
  lemma ZeroPriceUpdateKeepsPrice(m: Db, id: string, freshId: string, now: int)
    requires m.tableExists && id != "" && Find(m.rows, id).Some?
    ensures var s := UpdateTablet(id, TabletFields(Absent, Absent, Given(0), Absent), Answers(m, freshId, now));
      && s.response.status == 200
      && s.response.body.tablet.price == Find(m.rows, id).value.price
  {
  }

  /** Updating a missing id answers 404 and changes nothing. */
  lemma UpdateOfMissingId(m: Db, id: string, input: TabletFields, freshId: string, now: int)
    requires m.tableExists && id != "" && Find(m.rows, id).None?
    ensures var s := UpdateTablet(id, input, Answers(m, freshId, now));
      s.response == Response(404, Error(NOT_FOUND)) && Replay(m, s.calls, freshId, now) == m
  {
  }

  /** A create at a time later than every stored row puts the new Tablet in
      front of the list and leaves the rest of the list as it was. */
  lemma CreateListedFirst(m: Db, input: TabletFields, freshId: string, now: int, later: int)
    requires m.tableExists
    requires forall t :: t in m.rows ==> t.createdAt < now
    ensures GetTablets(Answers(m, freshId, now)).response == Response(200, TabletList(SortNewestFirst(m.rows)))
    ensures var s := CreateTablet(input, Answers(m, freshId, now));
      var m' := Replay(m, s.calls, freshId, now);
      s.response.status == 201 ==>
        && s.response.body.OneTablet?
        && GetTablets(Answers(m', freshId, later)).response
          == Response(200, TabletList([s.response.body.tablet] + SortNewestFirst(m.rows)))
  {
    var s := CreateTablet(input, Answers(m, freshId, now));
    if s.response.status == 201 {
      var t := Stored(CreateData(input), freshId, now);
      assert s.calls == [CreateRow(CreateData(input))];
      ReplayOne(m, CreateRow(CreateData(input)), freshId, now);
      var m' := Replay(m, s.calls, freshId, now);
      assert m'.rows == [t] + m.rows;
      SortPutsNewestInFront(t, m.rows);
    }
  }

  /** A complete create with a fresh id answers 201 with the stored row and
      puts that row in front of the table. */
  lemma CreateStores(m: Db, input: TabletFields, freshId: string, now: int)
    requires m.tableExists && !MissingRequired(input) && Find(m.rows, freshId).None?
    ensures var s := CreateTablet(input, Answers(m, freshId, now));
      var t := Stored(CreateData(input), freshId, now);
      && s.response == Response(201, OneTablet(t))
      && Replay(m, s.calls, freshId, now) == m.(rows := [t] + m.rows)
  {
  }

  /** Two creates at increasing times, both later than every stored row, are
      listed in reverse order of creation ahead of the older rows. */
  lemma TwoCreatesListedNewestFirst(m: Db, a: TabletFields, idA: string, b: TabletFields, idB: string, t1: int, t2: int)
    requires m.tableExists && !MissingRequired(a) && !MissingRequired(b)
    requires idA != idB && Find(m.rows, idA).None? && Find(m.rows, idB).None?
    requires t1 < t2 && forall t :: t in m.rows ==> t.createdAt < t1
    ensures var sa := CreateTablet(a, Answers(m, idA, t1));
      var m1 := Replay(m, sa.calls, idA, t1);
      var sb := CreateTablet(b, Answers(m1, idB, t2));
      var m2 := Replay(m1, sb.calls, idB, t2);
      && sa.response.body.OneTablet? && sb.response.body.OneTablet?
      && GetTablets(Answers(m2, idB, t2)).response
        == Response(200, TabletList([sb.response.body.tablet, sa.response.body.tablet] + SortNewestFirst(m.rows)))
  {
    var ta := Stored(CreateData(a), idA, t1);
    var tb := Stored(CreateData(b), idB, t2);
    CreateStores(m, a, idA, t1);
    var m1 := m.(rows := [ta] + m.rows);
    assert Find(m1.rows, idB).None?;
    CreateStores(m1, b, idB, t2);
    var m2 := m1.(rows := [tb] + m1.rows);
    SortPutsNewestInFront(ta, m.rows);
    SortPutsNewestInFront(tb, m1.rows);
    assert SortNewestFirst(m2.rows) == [tb, ta] + SortNewestFirst(m.rows);
  }

  /** Listing a database that has the table leaves it as it was. */
  lemma ListChangesNothing(m: Db, freshId: string, now: int)
    requires m.tableExists
    ensures Replay(m, GetTablets(Answers(m, freshId, now)).calls, freshId, now) == m
  {
  }

  /** The health check leaves the database as it was. */
  lemma HealthChangesNothing(m: Db, databaseUrl: string, probe: DbResult<()>, count: DbResult<nat>, freshId: string, now: int)
    ensures Replay(m, Diagnostics.Health(databaseUrl, probe, count).calls, freshId, now) == m
  {
    ReadsChangeNothing(m, Diagnostics.Health(databaseUrl, probe, count).calls, freshId, now);
  }

  /** The database test leaves the database as it was. */
  lemma TestDbChangesNothing(m: Db, databaseUrl: string, connect: DbResult<seq<int>>, sample: DbResult<seq<Tablet>>, freshId: string, now: int)
    ensures Replay(m, Diagnostics.TestDb(databaseUrl, connect, sample).calls, freshId, now) == m
  {
  }

  /** A migration that finds the table leaves the database as it was. */
  lemma UpToDateMigrationChangesNothing(m: Db, secret: string, authorization: Option<string>, createTable: DbResult<()>, freshId: string, now: int)
    requires m.tableExists
    ensures Replay(m, Migrate(secret, authorization, TableProbe(m), createTable).calls, freshId, now) == m
  {
  }

  /** Listing a database without the Tablet table creates it and answers with
      an empty list; the next list finds the (empty) table. */
  lemma ListHealsMissingTable(freshId: string, now: int)
    ensures var m := Db(false, []);
      var first := GetTablets(Answers(m, freshId, now));
      var m' := Replay(m, first.calls, freshId, now);
      && first.response == Response(200, TabletList([]))
      && m' == Db(true, [])
      && GetTablets(Answers(m', freshId, now)).response == Response(200, TabletList([]))
  {
    var m := Db(false, []);
    var first := GetTablets(Answers(m, freshId, now));
    assert first.calls == [SelectOne, FindManyNewestFirst, CreateTable];
    assert first.calls[1..] == [FindManyNewestFirst, CreateTable];
    assert first.calls[1..][1..] == [CreateTable];
    ReplayOne(m, CreateTable, freshId, now);
  }

  /** The probe the migration endpoint makes. */
  function TableProbe(m: Db): DbResult<()>
  {
    if m.tableExists then Ok(()) else Err(TABLE_MISSING)
  }

  /** Running the migration twice: the first run creates the table, the second
      finds it and creates nothing. */
  lemma MigrationIsIdempotent(m: Db, secret: string, freshId: string, now: int)
    requires secret != "" && !m.tableExists
    ensures var first := Migrate(secret, Some(Bearer(secret)), TableProbe(m), Ok(()));
      var m' := Replay(m, first.calls, freshId, now);
      var second := Migrate(secret, Some(Bearer(secret)), TableProbe(m'), Ok(()));
      && first.response == Response(200, Message(COMPLETED))
      && m'.tableExists
      && second.response == Response(200, Message(UP_TO_DATE))
      && Replay(m', second.calls, freshId, now) == m'
  {
  }
}

=== FILE: migrate.dfy ===
/** The guarded schema-bootstrap endpoint: a configured secret, a bearer
    token equal to it, then a probe of the Tablet table that creates the
    table when it is missing. */
module Migration {
  import opened Records
  import opened Backend
  import opened Http

  const NOT_CONFIGURED := "Migration secret key not configured"
  const UP_TO_DATE := "Database schema is already up to date"
  const COMPLETED := "Database migration completed successfully"
  const FAILED := "Migration failed"

  function Bearer(secret: string): string
  {
    "Bearer " + secret
  }

  /** `authHeader && authHeader === \`Bearer ${expectedKey}\`` */
  predicate Authorized(secret: string, authorization: Option<string>)
  {
    authorization.Some? && authorization.value != "" && authorization.value == Bearer(secret)
  }

  /** The emptiness test on the header adds nothing: exact equality decides. */
  lemma AuthorizedIffExactBearer(secret: string, authorization: Option<string>)
    ensures Authorized(secret, authorization) <==> authorization == Some(Bearer(secret))
  {
  }

  /** The endpoint. `secret` is MIGRATION_SECRET_KEY ("" when unset),
      `authorization` the Authorization header, `probe` the outcome of
      selecting from the Tablet table and `createTable` that of creating it. */
  function Migrate(secret: string, authorization: Option<string>, probe: DbResult<()>, createTable: DbResult<()>): (r: Step)
    ensures secret == "" ==> r.response == Response(500, Error(NOT_CONFIGURED)) && r.calls == []
    ensures r.response.status == 401 <==> secret != "" && authorization != Some(Bearer(secret))
    ensures r.response.status == 401 ==> r.response.body == Error("Unauthorized") && r.calls == []
    ensures r.calls != [] <==> secret != "" && authorization == Some(Bearer(secret))
    ensures r.calls != [] ==> r.calls[0] == ProbeTable && Released(r.calls)
    ensures CreateTable in r.calls <==>
      secret != "" && authorization == Some(Bearer(secret)) && probe.Err? && MissingTable(probe.error)
    ensures r.calls != [] && !(probe.Err? && MissingTable(probe.error)) ==> r.calls == [ProbeTable, Disconnect]
    ensures r.calls != [] && probe.Err? && MissingTable(probe.error) ==>
      r.calls == [ProbeTable, CreateTable, Disconnect]
    ensures r.response.status in {200, 401, 500}
    ensures r.response.status == 200 <==>
      secret != "" && authorization == Some(Bearer(secret)) &&
      (probe.Ok? || (MissingTable(probe.error) && createTable.Ok?))
    ensures r.response.status == 200 && probe.Ok? ==> r.response.body == Message(UP_TO_DATE)
    ensures r.response.status == 200 && probe.Err? ==> r.response.body == Message(COMPLETED)
    ensures r.calls != [] && probe.Err? && !MissingTable(probe.error) ==>
      r.response == Response(500, ErrorDetails(FAILED, Details(probe.error)))
    ensures r.calls != [] && probe.Err? && MissingTable(probe.error) && createTable.Err? ==>
      r.response == Response(500, ErrorDetails(FAILED, Details(createTable.error)))
  {
    if secret == "" then
      Step(Response(500, Error(NOT_CONFIGURED)), [])
    else if !Authorized(secret, authorization) then
      Step(Response(401, Error("Unauthorized")), [])
    else
      match probe
      case Ok(_) => Step(Response(200, Message(UP_TO_DATE)), [ProbeTable, Disconnect])
      case Err(e) =>
        if MissingTable(e) then
          match createTable
          case Ok(_) => Step(Response(200, Message(COMPLETED)), [ProbeTable, CreateTable, Disconnect])
          case Err(e2) => Step(Response(500, ErrorDetails(FAILED, Details(e2))), [ProbeTable, CreateTable, Disconnect])
        else
          Step(Response(500, ErrorDetails(FAILED, Details(e))), [ProbeTable, Disconnect])
  }
}

=== FILE: records.dfy ===
/** The Tablet entity and the shapes of data that flow between the HTTP
    layer and the database client. */
module Records {

  datatype Option<+T> = None | Some(value: T)

  /** A property of a JSON request body: missing (`undefined`), `null`, or given. */
  datatype Field<+T> = Absent | Null | Given(value: T)

  /** JavaScript truthiness of a string-valued field: `undefined`, `null` and "" are falsy. */
  predicate TruthyText(f: Field<string>)
  {
    f.Given? && f.value != ""
  }

  /** JavaScript truthiness of a number-valued field: `undefined`, `null` and 0 are falsy. */
  predicate TruthyNumber(f: Field<int>)
  {
    f.Given? && f.value != 0
  }

  /** `f == null` in JavaScript (loose equality): true for both `null` and `undefined`. */
  predicate Nullish<T>(f: Field<T>)
  {
    !f.Given?
  }

  /** A stored Tablet row. The price is a number (the floating-point column is
      modelled as an integer); timestamps are abstract instants. The
      description column is nullable. */
  datatype Tablet = Tablet(
    id: string,
    name: string,
    genericName: string,
    price: int,
    description: Option<string>,
    createdAt: int,
    updatedAt: int)

  /** The request body of a create or update: `{ name, genericName, price, description }`. */
  datatype TabletFields = TabletFields(
    name: Field<string>,
    genericName: Field<string>,
    price: Field<int>,
    description: Field<string>)

  /** The `data` argument of `prisma.tablet.create`. */
  datatype NewTablet = NewTablet(name: string, genericName: string, price: int, description: string)

  /** The `data` argument of `prisma.tablet.update`: an `Absent` field is passed
      as `undefined` and leaves the column unchanged; `Null` sets it to null. */
  datatype TabletPatch = TabletPatch(
    name: Field<string>,
    genericName: Field<string>,
    price: Option<int>,
    description: Field<string>)
}

=== FILE: router.dfy ===
/** The serverless handler for the Tablet collection (`/api/tablets`):
    CORS headers, preflight short-circuit, dispatch on the method, and release
    of the database client on every path that reaches the dispatch. */
module CollectionRouter {
  import opened Records
  import opened Backend
  import opened Http
  import opened TabletHandlers

  /** A response header; a header set from an array has several values. */
  datatype Header = Header(name: string, values: seq<string>)

  /** What the function sends: status, headers, body, and the client calls made. */
  datatype Reply = Reply(status: int, headers: seq<Header>, body: Body, calls: seq<DbCall>)

  const CORS_HEADERS: seq<Header> := [
    Header("Access-Control-Allow-Origin", ["*"]),
    Header("Access-Control-Allow-Methods", ["GET,POST,OPTIONS"]),
    Header("Access-Control-Allow-Headers", ["Content-Type, Authorization"])
  ]

  const ALLOW: Header := Header("Allow", ["GET", "POST"])

  function NotAllowedText(verb: string): string
  {
    "Method " + verb + " Not Allowed"
  }

  /** The handler for HTTP method `verb`. `disconnect` is the outcome of the first `$disconnect()`
      inside the dispatch; when it throws, the catch block disconnects again
      and answers 500. */
  function Handle(verb: string, payload: TabletFields, db: Prisma, disconnect: DbResult<()>): (r: Reply)
    ensures |r.headers| >= 3 && r.headers[..3] == CORS_HEADERS
    ensures verb == "OPTIONS" <==> r.calls == []
    ensures verb == "OPTIONS" ==> r.status == 200 && r.body == NoBody && r.headers == CORS_HEADERS
    ensures verb != "OPTIONS" ==> Released(r.calls)
    ensures verb == "GET" && disconnect.Ok? ==>
      && r.status == GetTablets(db).response.status
      && r.body == GetTablets(db).response.body
      && r.calls == GetTablets(db).calls + [Disconnect]
    ensures verb == "POST" && disconnect.Ok? ==>
      && r.status == CreateTablet(payload, db).response.status
      && r.body == CreateTablet(payload, db).response.body
      && r.calls == CreateTablet(payload, db).calls + [Disconnect]
    ensures r.status == 405 <==> verb !in {"OPTIONS", "GET", "POST"} && disconnect.Ok?
    ensures r.status == 405 ==>
      r.headers == CORS_HEADERS + [ALLOW] && r.body == Text(NotAllowedText(verb)) && r.calls == [Disconnect]
    ensures ALLOW in r.headers <==> r.status == 405
    ensures r.status != 405 ==> r.headers == CORS_HEADERS
    ensures verb != "OPTIONS" && disconnect.Err? ==>
      && r.status == 500
      && r.body == ErrorDetails(INTERNAL_ERROR, Details(disconnect.error))
    ensures verb == "GET" && disconnect.Err? ==> r.calls == GetTablets(db).calls + [Disconnect, Disconnect]
    ensures verb == "POST" && disconnect.Err? ==> r.calls == CreateTablet(payload, db).calls + [Disconnect, Disconnect]
    ensures verb !in {"OPTIONS", "GET", "POST"} && disconnect.Err? ==> r.calls == [Disconnect, Disconnect]
  {
    if verb == "OPTIONS" then
      Reply(200, CORS_HEADERS, NoBody, [])
    else
      var dispatched :=
        if verb == "GET" then Some(GetTablets(db))
        else if verb == "POST" then Some(CreateTablet(payload, db))
        else None;
      var before := if dispatched.Some? then dispatched.value.calls else [];
      if disconnect.Err? then
        Reply(500, CORS_HEADERS, ErrorDetails(INTERNAL_ERROR, Details(disconnect.error)),
              before + [Disconnect, Disconnect])
      else
        match dispatched
        case Some(s) => Reply(s.response.status, CORS_HEADERS, s.response.body, before + [Disconnect])
        case None => Reply(405, CORS_HEADERS + [ALLOW], Text(NotAllowedText(verb)), [Disconnect])
  }

  /** Every status the collection endpoint can answer with. */
  lemma HandleStatuses(verb: string, payload: TabletFields, db: Prisma, disconnect: DbResult<()>)
    ensures Handle(verb, payload, db, disconnect).status in {200, 201, 400, 405, 500}
    ensures verb == "GET" ==> Handle(verb, payload, db, disconnect).status in {200, 500}
  {
  }
}

=== FILE: server.dfy ===
/** The Express application: the CORS origin rule, the five Tablet routes,
    the inline health route and the client-side routing fallback. */
module Server {
  import opened Records
  import opened Backend
  import opened Http
  import opened TabletHandlers
  import opened Strings
  import Diagnostics

  // ---------------------------------------------------------------- CORS

  datatype CorsDecision = Allowed | Rejected(message: string)

  /** The fixed part of the allow-list. The deployment entry carries a trailing
      slash, which a browser's Origin header never has. */
  const FIXED_ORIGINS: seq<string> := [
    "http://localhost:8080",
    "http://localhost:8081",
    "http://localhost:5173",
    "http://localhost:3000",
    "https://tnaar-healthcare.vercel.app/"
  ]

  /** The allow-list; `frontendUrl` is FRONTEND_URL, "" when unset. */
  function AllowedOrigins(frontendUrl: string): seq<string>
  {
    FIXED_ORIGINS + [frontendUrl]
  }

  predicate HostedOrigin(origin: string)
  {
    EndsWith(origin, ".vercel.app") || EndsWith(origin, ".railway.app")
  }

  /** `corsOptions.origin`; `origin` is "" when the request has no Origin header. */
  function CorsOrigin(origin: string, frontendUrl: string): (d: CorsDecision)
    ensures origin == "" ==> d == Allowed
    ensures d == Allowed <==> origin == "" || origin in AllowedOrigins(frontendUrl) || HostedOrigin(origin)
    ensures d.Rejected? ==> d.message == "Not allowed by CORS"
  {
    if origin == "" then Allowed
    else if origin in AllowedOrigins(frontendUrl) || HostedOrigin(origin) then Allowed
    else Rejected("Not allowed by CORS")
  }

  /** With FRONTEND_URL unset the list gains "", which admits nothing the
      no-origin rule did not already admit. */
  lemma UnsetFrontendUrlAdmitsNothingMore(origin: string)
    ensures CorsOrigin(origin, "") == Allowed <==>
      origin == "" || origin in FIXED_ORIGINS || HostedOrigin(origin)
  {
  }

  /** A configured FRONTEND_URL is admitted exactly. */
  lemma FrontendUrlAdmitted(frontendUrl: string)
    ensures CorsOrigin(frontendUrl, frontendUrl) == Allowed
  {
  }

  /** The deployment's real origin (no trailing slash) is not in the list but
      is admitted by the `.vercel.app` suffix rule. */
  lemma DeploymentOriginAdmittedBySuffix(frontendUrl: string)
    ensures "https://tnaar-healthcare.vercel.app" !in FIXED_ORIGINS
    ensures CorsOrigin("https://tnaar-healthcare.vercel.app", frontendUrl) == Allowed
  {
  }

  // ---------------------------------------------------------------- routing

  const COLLECTION_PATH := "/api/tablets"
  const ITEM_PREFIX := "/api/tablets/"
  const HEALTH_PATH := "/api/health"

  function ItemPath(id: string): string
  {
    ITEM_PREFIX + id
  }

  /** Match `/api/tablets/:id`: the parameter is one non-empty path segment. */
  function ItemId(path: string): (r: Option<string>)
    ensures r.Some? ==> path == ItemPath(r.value) && r.value != "" && '/' !in r.value
  {
    if StartsWith(path, ITEM_PREFIX) then
      var rest := path[|ITEM_PREFIX|..];
      if rest != "" && '/' !in rest then Some(rest) else None
    else
      None
  }

  /** Building an item path and matching it gives back the id. */
  lemma ItemPathRoundTrip(id: string)
    requires id != "" && '/' !in id
    ensures ItemId(ItemPath(id)) == Some(id)
  {
  }

  datatype Route =
    | ListRoute
    | GetRoute(id: string)
    | CreateRoute
    | UpdateRoute(id: string)
    | DeleteRoute(id: string)
    | HealthRoute
    | FallbackRoute
    | NoRoute

  /** Express lets a HEAD request run the handlers registered with `app.get`. */
  predicate ReadVerb(verb: string)
  {
    verb == "GET" || verb == "HEAD"
  }

  /** The first route, in registration order, that matches the request. */
  function Resolve(verb: string, path: string): (route: Route)
    ensures route.FallbackRoute? <==>
      ReadVerb(verb) && path != COLLECTION_PATH && path != HEALTH_PATH && ItemId(path).None?
    ensures route.ListRoute? <==> ReadVerb(verb) && path == COLLECTION_PATH
    ensures route.GetRoute? <==> ReadVerb(verb) && ItemId(path).Some?
    ensures route.HealthRoute? <==> ReadVerb(verb) && path == HEALTH_PATH
    ensures route.CreateRoute? <==> verb == "POST" && path == COLLECTION_PATH
    ensures route.UpdateRoute? <==> verb == "PUT" && ItemId(path).Some?
    ensures route.DeleteRoute? <==> verb == "DELETE" && ItemId(path).Some?
    ensures verb !in {"GET", "HEAD", "POST", "PUT", "DELETE"} ==> route == NoRoute
    ensures ReadVerb(verb) ==> route != NoRoute
    ensures route.GetRoute? || route.UpdateRoute? || route.DeleteRoute? ==> route.id == ItemId(path).value
  {
    if ReadVerb(verb) then
      if path == COLLECTION_PATH then ListRoute
      else if ItemId(path).Some? then GetRoute(ItemId(path).value)
      else if path == HEALTH_PATH then HealthRoute
      else FallbackRoute
    else if verb == "POST" && path == COLLECTION_PATH then CreateRoute
    else if verb == "PUT" && ItemId(path).Some? then UpdateRoute(ItemId(path).value)
    else if verb == "DELETE" && ItemId(path).Some? then DeleteRoute(ItemId(path).value)
    else NoRoute
  }

  // ---------------------------------------------------------------- the app

  datatype Request = Request(verb: string, path: string, origin: string, body: TabletFields)

  /** Deployment inputs: FRONTEND_URL ("" when unset), the dist directory the
      server settled on at start-up, and whether its index.html exists. */
  datatype Config = Config(frontendUrl: string, activeDist: Option<string>, indexExists: bool)

  datatype Outcome =
    | Json(status: int, body: Body)    // res.status(s).json(b)
    | SendFile(path: string)           // res.sendFile(path)
    | CorsFailure(message: string)     // the cors middleware passes this error on
    | Preflight                        // answered by the cors middleware itself
    | Unrouted                         // no route of this application matches

  function Forward(resp: Response): Outcome
  {
    Json(resp.status, resp.body)
  }

  /** Node sends the status and headers of a HEAD response but drops its body. */
  function HeadOf(out: Outcome): (head: Outcome)
    ensures out.Json? ==> head == Json(out.status, NoBody)
    ensures !out.Json? ==> head == out
  {
    if out.Json? then Json(out.status, NoBody) else out
  }

  /** GET /api/health of the Express server. */
  function ApiHealth(selectOne: DbResult<()>): (out: Outcome)
    ensures out.Json? && out.status in {200, 500}
    ensures out.status == 200 <==> selectOne.Ok?
    ensures selectOne.Ok? ==> out.body == Status("OK", "Server and database are running")
    ensures selectOne.Err? ==> out.body == StatusError("ERROR", "Database connection failed", selectOne.error.message)
  {
    match selectOne
    case Ok(_) => Json(200, Status("OK", "Server and database are running"))
    case Err(e) => Json(500, StatusError("ERROR", "Database connection failed", e.message))
  }

  /** The Express health route and the serverless one agree on the status
      whenever the database is configured and the count query succeeds. */
  lemma HealthRoutesAgree(databaseUrl: string, probe: DbResult<()>, count: DbResult<nat>)
    requires databaseUrl != "" && count.Ok?
    ensures ApiHealth(probe).status == Diagnostics.Health(databaseUrl, probe, count).response.status
  {
  }

  function IndexPath(dist: string): string
  {
    dist + "/index.html"
  }

  const BUILD_HINT := "No dist folder found. Build the frontend (cd frontend && npm run build) and restart the server."

  function IndexMissingDetails(dist: string): string
  {
    "Missing index.html at " + IndexPath(dist) + ". Build the frontend (cd frontend && npm run build)."
  }

  /** `app.get('*')`: API paths get a JSON 404, everything else the built
      frontend's index.html, or 503 when it has not been built. */
  function Fallback(path: string, activeDist: Option<string>, indexExists: bool): (out: Outcome)
    ensures StartsWith(path, "/api/") ==> out == Json(404, Error("Not found"))
    ensures !StartsWith(path, "/api/") && activeDist.None? ==>
      out == Json(503, ErrorDetails("Frontend not built", BUILD_HINT))
    ensures !StartsWith(path, "/api/") && activeDist.Some? && !indexExists ==>
      out == Json(503, ErrorDetails("Frontend index missing", IndexMissingDetails(activeDist.value)))
    ensures out.SendFile? <==> !StartsWith(path, "/api/") && activeDist.Some? && indexExists
    ensures out.SendFile? ==> out.path == IndexPath(activeDist.value)
  {
    if StartsWith(path, "/api/") then
      Json(404, Error("Not found"))
    else if activeDist.None? then
      Json(503, ErrorDetails("Frontend not built", BUILD_HINT))
    else if !indexExists then
      Json(503, ErrorDetails("Frontend index missing", IndexMissingDetails(activeDist.value)))
    else
      SendFile(IndexPath(activeDist.value))
  }

  /** One request through the application: CORS, then the routes in order. */
  function App(req: Request, cfg: Config, db: Prisma): (out: Outcome)
    ensures CorsOrigin(req.origin, cfg.frontendUrl).Rejected? <==> out.CorsFailure?
    ensures out.Preflight? <==> CorsOrigin(req.origin, cfg.frontendUrl).Allowed? && req.verb == "OPTIONS"
  {
    var cors := CorsOrigin(req.origin, cfg.frontendUrl);
    if cors.Rejected? then CorsFailure(cors.message)
    else if req.verb == "OPTIONS" then Preflight
    else if req.verb == "HEAD" then HeadOf(Dispatch(req.(verb := "GET"), cfg, db))
    else Dispatch(req, cfg, db)
  }

  /** The route handlers, after CORS has let the request through. */
  function Dispatch(req: Request, cfg: Config, db: Prisma): Outcome
  {
      match Resolve(req.verb, req.path)
      case ListRoute => Forward(GetTablets(db).response)
      case GetRoute(id) => Forward(GetTabletById(id, db).response)
      case CreateRoute => Forward(CreateTablet(req.body, db).response)
      case UpdateRoute(id) => Forward(UpdateTablet(id, req.body, db).response)
      case DeleteRoute(id) => Forward(DeleteTablet(id, db).response)
      case HealthRoute => ApiHealth(db.selectOne)
      case FallbackRoute => Fallback(req.path, cfg.activeDist, cfg.indexExists)
      case NoRoute => Unrouted
  }

  /** The five Tablet routes hand back the handler's status and body
      unchanged, with the id taken from the path. */
  lemma TabletRoutesPassThrough(id: string, origin: string, body: TabletFields, cfg: Config, db: Prisma)
    requires id != "" && '/' !in id
    requires CorsOrigin(origin, cfg.frontendUrl) == Allowed
    ensures App(Request("GET", COLLECTION_PATH, origin, body), cfg, db) == Forward(GetTablets(db).response)
    ensures App(Request("GET", ItemPath(id), origin, body), cfg, db) == Forward(GetTabletById(id, db).response)
    ensures App(Request("POST", COLLECTION_PATH, origin, body), cfg, db) == Forward(CreateTablet(body, db).response)
    ensures App(Request("PUT", ItemPath(id), origin, body), cfg, db) == Forward(UpdateTablet(id, body, db).response)
    ensures App(Request("DELETE", ItemPath(id), origin, body), cfg, db) == Forward(DeleteTablet(id, db).response)
  {
  }

  /** An allowed request that no route claims falls through the application. */
  lemma UnmatchedRequestsFallThrough(verb: string, path: string, origin: string, body: TabletFields, cfg: Config, db: Prisma)
    requires CorsOrigin(origin, cfg.frontendUrl) == Allowed
    requires verb !in {"OPTIONS", "HEAD"} && Resolve(verb, path) == NoRoute
    ensures App(Request(verb, path, origin, body), cfg, db) == Unrouted
  {
  }

  /** A HEAD request gets the status the matching GET would get, and no body. */
  lemma HeadMirrorsGet(path: string, origin: string, body: TabletFields, cfg: Config, db: Prisma)
    requires CorsOrigin(origin, cfg.frontendUrl) == Allowed
    ensures App(Request("HEAD", path, origin, body), cfg, db) == HeadOf(App(Request("GET", path, origin, body), cfg, db))
  {
  }

  /** GET /api/health reports the raw connectivity probe, and a GET of any
      path no other route claims reaches the fallback. */
  lemma HealthAndFallbackRoutes(path: string, origin: string, body: TabletFields, cfg: Config, db: Prisma)
    requires CorsOrigin(origin, cfg.frontendUrl) == Allowed
    ensures App(Request("GET", HEALTH_PATH, origin, body), cfg, db) == ApiHealth(db.selectOne)
    ensures path != COLLECTION_PATH && path != HEALTH_PATH && ItemId(path).None? ==>
      App(Request("GET", path, origin, body), cfg, db) == Fallback(path, cfg.activeDist, cfg.indexExists)
  {
  }

  /** Outside `/api/` the fallback serves the built index.html when it
      exists, and otherwise a 503 that says what is missing. */
  lemma PageRequestsServeTheFrontend(path: string, origin: string, body: TabletFields, cfg: Config, db: Prisma)
    requires CorsOrigin(origin, cfg.frontendUrl) == Allowed
    requires !StartsWith(path, "/api/")
    ensures App(Request("GET", path, origin, body), cfg, db).SendFile? <==> cfg.activeDist.Some? && cfg.indexExists
    ensures cfg.activeDist.Some? && cfg.indexExists ==>
      App(Request("GET", path, origin, body), cfg, db) == SendFile(IndexPath(cfg.activeDist.value))
    ensures App(Request("GET", path, origin, body), cfg, db).Json? ==>
      App(Request("GET", path, origin, body), cfg, db).status == 503
  {
  }

  /** A GET under `/api/` is always answered with JSON, never with the
      frontend's index page, whatever the dist state. */
  lemma ApiPathsNeverServeTheFrontend(path: string, origin: string, body: TabletFields, cfg: Config, db: Prisma)
    requires StartsWith(path, "/api/")
    requires CorsOrigin(origin, cfg.frontendUrl) == Allowed
    ensures App(Request("GET", path, origin, body), cfg, db).Json?
  {
  }
}

=== FILE: strings.dfy ===
/** The handful of JavaScript string operations the handlers rely on:
    `startsWith`, `endsWith` and `includes`, over `string` as `seq<char>`. */
module Strings {

  /** True if `sub` occurs in `s` starting at index `i`. */
  predicate OccursAt(s: string, sub: string, i: int)
  {
    0 <= i <= |s| - |sub| && s[i..i + |sub|] == sub
  }

  /** `s.startsWith(prefix)` */
  predicate StartsWith(s: string, prefix: string)
  {
    |prefix| <= |s| && s[..|prefix|] == prefix
  }

  /** `s.endsWith(suffix)` */
  predicate EndsWith(s: string, suffix: string)
  {
    |suffix| <= |s| && s[|s| - |suffix|..] == suffix
  }

  /** `s.includes(sub)`: a left-to-right scan for the first occurrence. */
  function Includes(s: string, sub: string): (r: bool)
    ensures r <==> exists i :: OccursAt(s, sub, i)
    decreases |s|
  {
    if |sub| > |s| then
      false
    else if s[..|sub|] == sub then
      assert OccursAt(s, sub, 0);
      true
    else
      var rest := Includes(s[1..], sub);
      assert forall i :: OccursAt(s, sub, i) && i > 0 ==> OccursAt(s[1..], sub, i - 1);
      assert forall i :: OccursAt(s[1..], sub, i) ==> OccursAt(s, sub, i + 1);
      rest
  }
}

=== FILE: tablets.dfy ===
/** The five Tablet operations of the integrations layer. Each maps its input
    and the database's answers to a `(status, body)` response, and records the
    calls it made on the client. */
module TabletHandlers {
  import opened Records
  import opened Backend
  import opened Http

  const INTERNAL_ERROR := "Internal Server Error"
  const DATABASE_ERROR := "Database Error"
  const CONNECTION_ERROR := "Database Connection Error"
  const CONNECTION_DETAILS := "Cannot connect to database. Check your DATABASE_URL environment variable."
  const SELF_HEAL_FAILED := "Table does not exist and could not be created automatically. Run migrations."
  const UNIQUE_DETAILS := "Unique constraint failed."
  const FOREIGN_KEY_DETAILS := "Foreign key constraint failed."
  const FIELD_DETAILS := "Value violates field constraint."
  const NOT_FOUND := "Tablet not found"
  const DUPLICATE := "Duplicate Entry"
  const DUPLICATE_DETAILS := "A tablet with this name already exists."
  const MISSING_FIELDS := "Missing required fields"

  /** The generic failure every operation falls back to. */
  function InternalError(e: DbError): Response
  {
    Response(500, ErrorDetails(INTERNAL_ERROR, Details(e)))
  }

  // ---------------------------------------------------------------- list

  /** The error that reaches the list handler's catch block, if any: the
      connectivity probe's, else the query's. */
  function ListFailure(db: Prisma): Option<DbError>
  {
    if db.selectOne.Err? then Some(db.selectOne.error)
    else if db.findMany.Err? then Some(db.findMany.error)
    else None
  }

  /** The list handler takes the table-missing branch for this error. */
  predicate SelfHeals(e: DbError)
  {
    e.code != P1001 && MissingTable(e)
  }

  /** The catch block of the list handler: classify the error and, for a
      missing table, try to create it and answer with an empty list. */
  function ListErrorResponse(e: DbError, createTable: DbResult<()>): (resp: Response)
    ensures resp.status == 200 <==> SelfHeals(e) && createTable.Ok?
    ensures resp.status == 200 ==> resp.body == TabletList([])
    ensures resp.status != 200 ==> resp.status == 500
    ensures e.code == P1001 ==> resp.body == ErrorDetails(CONNECTION_ERROR, CONNECTION_DETAILS)
    ensures SelfHeals(e) && createTable.Err? ==> resp.body == ErrorDetails(DATABASE_ERROR, SELF_HEAL_FAILED)
    ensures !MissingTable(e) && e.code == P2002 ==> resp == Response(500, ErrorDetails(DATABASE_ERROR, UNIQUE_DETAILS))
    ensures !MissingTable(e) && e.code == P2003 ==> resp == Response(500, ErrorDetails(DATABASE_ERROR, FOREIGN_KEY_DETAILS))
    ensures !MissingTable(e) && e.code == P2005 ==> resp == Response(500, ErrorDetails(DATABASE_ERROR, FIELD_DETAILS))
    ensures !MissingTable(e) && e.code !in {P1001, P2002, P2003, P2005} ==> resp == InternalError(e)
  {
    if e.code == P1001 then
      Response(500, ErrorDetails(CONNECTION_ERROR, CONNECTION_DETAILS))
    else if MissingTable(e) then
      if createTable.Ok? then Response(200, TabletList([]))
      else Response(500, ErrorDetails(DATABASE_ERROR, SELF_HEAL_FAILED))
    else if e.code == P2002 then
      Response(500, ErrorDetails(DATABASE_ERROR, UNIQUE_DETAILS))
    else if e.code == P2003 then
      Response(500, ErrorDetails(DATABASE_ERROR, FOREIGN_KEY_DETAILS))
    else if e.code == P2005 then
      Response(500, ErrorDetails(DATABASE_ERROR, FIELD_DETAILS))
    else
      InternalError(e)
  }

  /** GET /api/tablets: probe the connection, list newest first, and heal a
      missing table. */
  function GetTablets(db: Prisma): (r: Step)
    ensures r.calls in {[SelectOne], [SelectOne, CreateTable], [SelectOne, FindManyNewestFirst],
                        [SelectOne, FindManyNewestFirst, CreateTable]}
    ensures FindManyNewestFirst in r.calls <==> db.selectOne.Ok?
    ensures CreateTable in r.calls <==> ListFailure(db).Some? && SelfHeals(ListFailure(db).value)
    ensures r.response.status in {200, 500}
    ensures ListFailure(db).None? ==> r.response == Response(200, TabletList(db.findMany.value))
    ensures ListFailure(db).Some? ==> r.response == ListErrorResponse(ListFailure(db).value, db.createTable)
  {
    var queried := if db.selectOne.Ok? then [SelectOne, FindManyNewestFirst] else [SelectOne];
    match ListFailure(db)
    case None => Step(Response(200, TabletList(db.findMany.value)), queried)
    case Some(e) =>
      var calls := if SelfHeals(e) then queried + [CreateTable] else queried;
      assert calls == [SelectOne] || calls == [SelectOne, CreateTable]
          || calls == [SelectOne, FindManyNewestFirst] || calls == [SelectOne, FindManyNewestFirst, CreateTable];
      Step(ListErrorResponse(e, db.createTable), calls)
  }

  // ---------------------------------------------------------------- get

  /** GET /api/tablets/:id */
  function GetTabletById(id: string, db: Prisma): (r: Step)
    ensures id == "" <==> r.calls == []
    ensures id == "" ==> r.response == Response(400, Error("Missing tablet ID"))
    ensures id != "" ==> r.calls == [FindUnique(id)]
    ensures r.response.status in {200, 400, 404, 500}
    ensures r.response.status == 200 <==> id != "" && db.findUnique(id).Ok? && db.findUnique(id).value.Some?
    ensures r.response.status == 200 ==> r.response.body == OneTablet(db.findUnique(id).value.value)
    ensures r.response.status == 404 <==> id != "" && db.findUnique(id) == Ok(None)
    ensures r.response.status == 404 ==> r.response.body == Error(NOT_FOUND)
    ensures r.response.status == 500 <==> id != "" && db.findUnique(id).Err?
    ensures r.response.status == 500 ==> r.response == InternalError(db.findUnique(id).error)
  {
    if id == "" then
      Step(Response(400, Error("Missing tablet ID")), [])
    else
      var resp :=
        match db.findUnique(id)
        case Ok(None) => Response(404, Error(NOT_FOUND))
        case Ok(Some(t)) => Response(200, OneTablet(t))
        case Err(e) => InternalError(e);
      Step(resp, [FindUnique(id)])
  }

  // ---------------------------------------------------------------- create

  /** `!name || !genericName || price == null` */
  predicate MissingRequired(input: TabletFields)
  {
    !TruthyText(input.name) || !TruthyText(input.genericName) || Nullish(input.price)
  }

  /** The row data sent to the database once the required fields are present. */
  function CreateData(input: TabletFields): (d: NewTablet)
    requires !MissingRequired(input)
    ensures d.name == input.name.value && d.name != ""
    ensures d.genericName == input.genericName.value && d.genericName != ""
    ensures d.price == input.price.value
    ensures d.description == "" <==> !TruthyText(input.description)
    ensures TruthyText(input.description) ==> d.description == input.description.value
  {
    NewTablet(
      input.name.value,
      input.genericName.value,
      input.price.value,
      if TruthyText(input.description) then input.description.value else "")
  }

  /** POST /api/tablets */
  function CreateTablet(input: TabletFields, db: Prisma): (r: Step)
    ensures r.calls == [] <==> MissingRequired(input)
    ensures MissingRequired(input) ==> r.response == Response(400, Error(MISSING_FIELDS))
    ensures !MissingRequired(input) ==> r.calls == [CreateRow(CreateData(input))]
    ensures r.response.status in {201, 400, 500}
    ensures r.response.status == 201 <==> !MissingRequired(input) && db.create(CreateData(input)).Ok?
    ensures r.response.status == 201 ==> r.response.body == OneTablet(db.create(CreateData(input)).value)
    ensures r.response.status == 400 <==>
      MissingRequired(input) || (db.create(CreateData(input)).Err? && db.create(CreateData(input)).error.code == P2002)
    ensures !MissingRequired(input) && db.create(CreateData(input)).Err? && db.create(CreateData(input)).error.code == P2002 ==>
      r.response.body == ErrorDetails(DUPLICATE, DUPLICATE_DETAILS)
    ensures !MissingRequired(input) && db.create(CreateData(input)).Err? && db.create(CreateData(input)).error.code != P2002 ==>
      r.response == InternalError(db.create(CreateData(input)).error)
  {
    if MissingRequired(input) then
      Step(Response(400, Error(MISSING_FIELDS)), [])
    else
      var data := CreateData(input);
      var resp :=
        match db.create(data)
        case Ok(t) => Response(201, OneTablet(t))
        case Err(e) =>
          if e.code == P2002 then Response(400, ErrorDetails(DUPLICATE, DUPLICATE_DETAILS))
          else InternalError(e);
      Step(resp, [CreateRow(data)])
  }

  // ---------------------------------------------------------------- update

  /** The update data: fields pass through as given, except that a falsy price
      (absent, null or 0) is sent as `undefined`. */
  function PatchOf(input: TabletFields): (p: TabletPatch)
    ensures p.name == input.name && p.genericName == input.genericName && p.description == input.description
    ensures p.price.Some? <==> TruthyNumber(input.price)
    ensures p.price.Some? ==> p.price.value == input.price.value
  {
    TabletPatch(
      input.name,
      input.genericName,
      if TruthyNumber(input.price) then Some(input.price.value) else None,
      input.description)
  }

  /** PUT /api/tablets/:id */
  function UpdateTablet(id: string, input: TabletFields, db: Prisma): (r: Step)
    ensures id == "" <==> r.calls == []
    ensures id == "" ==> r.response == Response(400, Error("Invalid tablet ID"))
    ensures id != "" ==> r.calls == [UpdateRow(id, PatchOf(input))]
    ensures r.response.status in {200, 400, 404, 500}
    ensures r.response.status == 200 <==> id != "" && db.update(id, PatchOf(input)).Ok?
    ensures r.response.status == 200 ==> r.response.body == OneTablet(db.update(id, PatchOf(input)).value)
    ensures r.response.status == 404 <==>
      id != "" && db.update(id, PatchOf(input)).Err? && db.update(id, PatchOf(input)).error.code == P2025
    ensures r.response.status == 404 ==> r.response.body == Error(NOT_FOUND)
    ensures r.response.status == 400 <==>
      id == "" || (db.update(id, PatchOf(input)).Err? && db.update(id, PatchOf(input)).error.code == P2002)
    ensures id != "" && db.update(id, PatchOf(input)).Err? && db.update(id, PatchOf(input)).error.code == P2002 ==>
      r.response.body == ErrorDetails(DUPLICATE, DUPLICATE_DETAILS)
    ensures id != "" && db.update(id, PatchOf(input)).Err? && db.update(id, PatchOf(input)).error.code !in {P2025, P2002} ==>
      r.response == InternalError(db.update(id, PatchOf(input)).error)
  {
    if id == "" then
      Step(Response(400, Error("Invalid tablet ID")), [])
    else
      var patch := PatchOf(input);
      var resp :=
        match db.update(id, patch)
        case Ok(t) => Response(200, OneTablet(t))
        case Err(e) =>
          if e.code == P2025 then Response(404, Error(NOT_FOUND))
          else if e.code == P2002 then Response(400, ErrorDetails(DUPLICATE, DUPLICATE_DETAILS))
          else InternalError(e);
      Step(resp, [UpdateRow(id, patch)])
  }

  // ---------------------------------------------------------------- delete

  /** DELETE /api/tablets/:id */
  function DeleteTablet(id: string, db: Prisma): (r: Step)
    ensures id == "" <==> r.calls == []
    ensures id == "" ==> r.response == Response(400, Error("Invalid tablet ID"))
    ensures id != "" ==> r.calls == [DeleteRow(id)]
    ensures r.response.status in {204, 400, 404, 500}
    ensures r.response.status == 204 <==> id != "" && db.delete(id).Ok?
    ensures r.response.status == 204 ==> r.response.body == EmptyObject
    ensures r.response.status == 404 <==> id != "" && db.delete(id).Err? && db.delete(id).error.code == P2025
    ensures r.response.status == 404 ==> r.response.body == Error(NOT_FOUND)
    ensures r.response.status == 400 <==> id == ""
    ensures id != "" && db.delete(id).Err? && db.delete(id).error.code != P2025 ==>
      r.response == InternalError(db.delete(id).error)
  {
    if id == "" then
      Step(Response(400, Error("Invalid tablet ID")), [])
    else
      var resp :=
        match db.delete(id)
        case Ok(_) => Response(204, EmptyObject)
        case Err(e) =>
          if e.code == P2025 then Response(404, Error(NOT_FOUND))
          else InternalError(e);
      Step(resp, [DeleteRow(id)])
  }

  // ---------------------------------------------------------------- properties

  /** A price of 0 is present for create, which stores it, but falsy for
      update, which leaves the stored price as it was. */
  lemma ZeroPriceCreateVersusUpdate(id: string, input: TabletFields, db: Prisma)
    requires TruthyText(input.name) && TruthyText(input.genericName)
    requires input.price == Given(0) && id != ""
    ensures CreateTablet(input, db).calls[0].data.price == 0
    ensures UpdateTablet(id, input, db).calls[0].patch.price == None
  {
  }
}

=== FILE: taxonomy.dfy ===
/** The error taxonomy the Tablet operations apply, written once as a table
    from (operation, error class) to status, independently of the handlers;
    the lemmas below show each handler's catch block agrees with it. */
module ErrorTaxonomy {
  import opened Records
  import opened Backend
  import opened Http
  import opened TabletHandlers
  import Strings

  datatype Operation = List | Get | Create | Update | Delete

  datatype ErrorClass =
    | Connection        // P1001
    | MissingRelation   // P2021, or an uncoded error saying the relation does not exist
    | Uniqueness        // P2002
    | NotFound          // P2025
    | ForeignKey        // P2003
    | FieldConstraint   // P2005
    | Unclassified

  /** Classify by code first; the message is consulted only when the code is
      none of the known ones. */
  function Classify(e: DbError): ErrorClass
  {
    if e.code == P1001 then Connection
    else if e.code == P2021 then MissingRelation
    else if e.code == P2002 then Uniqueness
    else if e.code == P2025 then NotFound
    else if e.code == P2003 then ForeignKey
    else if e.code == P2005 then FieldConstraint
    else if Strings.Includes(e.message, "does not exist") then MissingRelation
    else Unclassified
  }

  /** The status an operation answers with when its database work fails with an
      error of class `c`; `healed` says whether creating the missing table worked. */
  function StatusFor(op: Operation, c: ErrorClass, healed: bool): int
  {
    match c
    case MissingRelation => if op == List && healed then 200 else 500
    case Uniqueness => if op == Create || op == Update then 400 else 500
    case NotFound => if op == Update || op == Delete then 404 else 500
    case _ => 500
  }

  /** The list handler follows the table, for every error whose message does
      not contradict its code (see `ListMessageOverridesCode`). */
  lemma ListFollowsTaxonomy(db: Prisma)
    requires ListFailure(db).Some?
    requires var e := ListFailure(db).value;
      e.code in {P1001, P2021} || !Strings.Includes(e.message, "does not exist") ||
      e.code !in {P2002, P2003, P2005, P2025}
    ensures GetTablets(db).response.status
      == StatusFor(List, Classify(ListFailure(db).value), db.createTable.Ok?)
  {
  }

  /** The list handler tests the message before the codes P2002, P2003 and
      P2005, so a coded error whose message mentions a missing relation makes
      it create the table and answer 200, where the table says 500. */
  lemma ListMessageOverridesCode(db: Prisma)
    requires db.selectOne.Err? && db.selectOne.error.code in {P2002, P2003, P2005, P2025}
    requires Strings.Includes(db.selectOne.error.message, "does not exist")
    requires db.createTable.Ok?
    ensures StatusFor(List, Classify(db.selectOne.error), true) == 500
    ensures GetTablets(db).response == Response(200, TabletList([]))
  {
  }

  lemma GetFollowsTaxonomy(id: string, db: Prisma)
    requires id != "" && db.findUnique(id).Err?
    ensures GetTabletById(id, db).response.status == StatusFor(Get, Classify(db.findUnique(id).error), false)
  {
  }

  lemma CreateFollowsTaxonomy(input: TabletFields, db: Prisma)
    requires !MissingRequired(input) && db.create(CreateData(input)).Err?
    ensures CreateTablet(input, db).response.status
      == StatusFor(Create, Classify(db.create(CreateData(input)).error), false)
  {
  }

  lemma UpdateFollowsTaxonomy(id: string, input: TabletFields, db: Prisma)
    requires id != "" && db.update(id, PatchOf(input)).Err?
    ensures UpdateTablet(id, input, db).response.status
      == StatusFor(Update, Classify(db.update(id, PatchOf(input)).error), false)
  {
  }

  lemma DeleteFollowsTaxonomy(id: string, db: Prisma)
    requires id != "" && db.delete(id).Err?
    ensures DeleteTablet(id, db).response.status == StatusFor(Delete, Classify(db.delete(id).error), false)
  {
  }
}
